=== FILE: README.md ===
# Portfolio site scripts, modelled in Dafny

This project models the client-side logic of a static personal-portfolio site:
`js/main.js` (page navigation, mobile menu, gallery lightbox) and
`js/components.js` (form validators, dark-mode switch). The DOM and the
browser's local storage are abstracted into immutable records, and each
event handler becomes a pure transition function from one record to the next.
The validators' regular expressions are stated as grammars over `seq<char>`.
Each grammar has a recognizer that is proved equal to it.

Modules, one per file:

- `Wrappers` (`wrappers.dfy`): `Option` stands for `null`. `Result` is the outcome of a handler that may raise.
- `Chars` (`chars.dfy`): JavaScript's line terminators and its whitespace set (`\s`, `trim`), ASCII digits and letters, ASCII lower-casing and digit counting.
- `Router` (`router.dfy`): `navigateToPage` and the nav-link click handler.
- `Menu` (`menu.dfy`): the hamburger toggle and the reset that runs on a nav-link click.
- `NavClick` (`navclick.dfy`): one nav-link click. It runs the two listeners that change state, the menu reset and then the navigation. A link whose href starts with `#` also fires a third listener, the smooth scroll of js/main.js:100-115, which only scrolls and is left out; that listener is attached only to `a[href^="#"]`.
- `Lightbox` (`lightbox.dfy`): the gallery lightbox's open, close and backdrop handlers.
- `Required` (`required.dfy`): `trim` and `validateRequired`.
- `Dotted` (`dotted.dfy`): splitting at and joining with '.', proved to be inverse to each other. The email grammar is built on it.
- `Phone` (`phone.dfy`): `validatePhone`. It has a greedy parser that round-trips with the pattern's rendering, and a line-anchored search (`m` flag). The `i` flag changes nothing, because no class in the pattern contains a letter.
- `Email` (`email.dfy`): `validateEmail`. The regular expression is stated as a grammar, and there are recognizers for each part.
- `DarkMode` (`darkmode.dfy`): `DarkMode.init` and its click handler, with storage as a map.

Three behaviours of the code worth knowing:

- Navigating to an id that no element carries clears every page. It highlights only the links whose href is `#` followed by that id, if there are any. The code does this silently, so it is neither ignored nor turned into an error.
- `getElementById` is not limited to `.page` elements. It finds the first element in tree order with that ID, and that element is activated even if it is not a page.
- Several links with the same href are all highlighted.

## Model

| member | source | states |
|---|---|---|
| Chars.LowerChar | js/components.js:7 | an ASCII capital maps to the small letter at the same alphabet position; every other character is unchanged, and no capital remains |
| Chars.AsciiLower | js/components.js:7 | lower-casing keeps the length and folds every character through `LowerChar`, which maps A-Z to a-z and leaves everything else alone |
| Chars.AsciiLowerIdempotent | js/components.js:7 | lower-casing an already lower-cased string changes nothing |
| Router.FindById | js/main.js:39 | returns an element exactly when some element is the first in tree order whose ID is the id; the empty string finds nothing |
| Router.HideAllPages | js/main.js:33-36 | every `.page` ends inactive; non-page elements, ids and page markers are untouched |
| Router.ShowFound | js/main.js:39-42 | the found element becomes active; every other element keeps its flag |
| Router.HighlightLinks | js/main.js:45-50 | each link ends active exactly when its href equals `#` followed by the page id; hrefs are kept |
| Router.Navigate | js/main.js:31-57 | ids, page markers and hrefs are kept; only the element `getElementById` finds can be an active page; that element ends active even if it is not a page; other non-page elements are unchanged; at most one page is active; a link is active iff its href is `#`+id |
| Router.DropFirst | js/main.js:63 | `substring(1)`: the first character followed by the result gives back the href; the empty href gives "" |
| Router.ClickNavLink | js/main.js:60-66 | raises exactly when the link has no href; otherwise it navigates to the href without its first character: the first element with that id is shown, no other page is, and exactly the links whose href is `#` plus that id are highlighted, and every other non-page element keeps its state; a link whose href starts with `#` is active after its own click |
| Router.NavigateUnknownClears | js/main.js:39-50 | for an id `getElementById` does not find (no element carries it, or it is "" as for the href `#`), every page ends inactive, and no link is active unless its href is `#`+id |
| Router.NavigateKnownPage | js/main.js:33-42 | for the id of a page, that page ends active and is the only active page |
| Router.NavigateForgetsHistory | js/main.js:33-50 | two documents of the same shape that agree on non-page elements navigate to the same result, so earlier page and link flags do not matter |
| Router.NavigateIdempotent | js/main.js:31-50 | navigating twice to an id equals navigating once |
| Router.NavigateScenario | js/main.js:31-50 | with pages home/about/contact and home shown, navigating to contact shows only contact and highlights only `#contact` |
| Menu.Toggle | js/main.js:6-14 | the menu flag and each of the three span classes flip; the four classes stay in step iff they were in step; from an in-step state the result is closed iff the menu was open |
| Menu.Reset | js/main.js:19-27 | the result is closed and in step |
| Menu.ToggleTwice | js/main.js:6-14 | two toggles restore the original state |
| Menu.ResetIdempotent | js/main.js:19-27 | resetting twice equals resetting once |
| NavClick.NavLinkClicked | js/main.js:18-65 | after a nav-link click the menu is closed; the document keeps its shape; a link without href leaves the document unchanged, because its listener raises after the menu reset has run; with an href, the first element carrying the href minus its first character is shown, no other page is, and exactly the links whose href is `#` plus that id are highlighted, and every other non-page element keeps its state; a `#` link ends highlighted |
| NavClick.NavLinkClickedTwice | js/main.js:18-65 | clicking the same link twice equals clicking it once |
| Lightbox.AttributeText | js/main.js:79-80 | a present attribute is copied verbatim; an absent one becomes "null" |
| Lightbox.Open | js/main.js:74-84 | raises exactly when the item has no `<img>`; otherwise the modal is shown with scrolling locked and the image's src and alt copied, an absent attribute showing as "null" |
| Lightbox.Close | js/main.js:86-89 | the modal is hidden and the overflow style is reset to the empty string; src and alt are kept |
| Lightbox.ModalClick | js/main.js:92-97 | a click inside the modal changes nothing; a click on the backdrop hides it and unlocks scrolling; src and alt are kept; the lock stays in step with the modal |
| Lightbox.OpenThenClose | js/main.js:74-89 | opening then closing leaves the modal hidden and unlocked, showing the opened image's attributes |
| Required.TrimStart | js/components.js:16 | the result is a suffix, everything dropped is whitespace, and it does not start with whitespace |
| Required.TrimEnd | js/components.js:16 | the result is a prefix, everything dropped is whitespace, and it does not end with whitespace |
| Required.Trim | js/components.js:16 | the result is a slice with only whitespace around it, and it neither starts nor ends with whitespace |
| Required.ValidateRequired | js/components.js:15-17 | true iff the value holds a character that is neither whitespace nor a line terminator |
| Required.TrimEmptyIffBlank | js/components.js:16 | trim yields "" iff every character is whitespace |
| Required.TrimIdempotent | js/components.js:16 | trimming twice equals trimming once |
| Dotted.Split | js/components.js:6 | the groups are dot-free and join back to the input |
| Dotted.SplitJoin | js/components.js:6 | splitting a join of dot-free groups gives the groups back |
| Dotted.JoinNoStrayDots | js/components.js:6 | joining non-empty dot-free groups gives no leading dot, no trailing dot and no two dots in a row |
| Dotted.JoinEndsInLast | js/components.js:6 | a join of two or more groups ends with a dot and then the last group |
| Email.MatchesDotAtoms | js/components.js:6 | true iff the text is one or more non-empty atoms of `[^<>()\[\]\\.,;:\s@"]` joined by dots |
| Email.MatchesIpLiteral | js/components.js:6 | true iff the text is `[`, four groups of 1-3 digits joined by dots, then `]` |
| Email.MatchesHostName | js/components.js:6 | true iff the text is one or more `[a-zA-Z-0-9]` labels, each followed by a dot, and then two or more letters |
| Email.DomainHasNoAt | js/components.js:6 | no text the domain grammar accepts contains '@' |
| Email.AtBeforeDomainIsLast | js/components.js:6 | an '@' that is followed by a domain is the last '@' of the text |
| Email.EmailShapeAtLastAt | js/components.js:6 | the text matches the pattern iff the part before the last '@' is a local part and the part after it is a domain |
| Email.MatchesEmail | js/components.js:6 | true iff the text matches the whole anchored pattern |
| Email.ValidateEmail | js/components.js:5-8 | true iff the lower-cased input matches the pattern |
| Email.ValidateEmailIgnoresCase | js/components.js:7 | an address and its lower-cased form are judged alike |
| Email.DotAtomsNoStrayDots | js/components.js:6 | an unquoted local part is non-empty and has no leading dot, no trailing dot and no two dots in a row |
| Email.HostNameEndsInTld | js/components.js:6 | a host name has a dot after its first character, and after its last dot come two or more letters |
| Email.RejectsOneLetterTld | js/components.js:6 | "a@b.c" is refused |
| Email.RejectsLeadingDot | js/components.js:6 | ".a@b.co" is refused |
| Email.IpLiteralUnranged | js/components.js:6 | "[999.0.0.1]" is a bracketed domain, because there is no 0-255 range check |
| Email.AcceptsUnrangedIpLiteral | js/components.js:5-8 | "x@[999.0.0.1]" is accepted |
| Phone.ParseAfterExchange | js/components.js:11 | a successful parse of the tail fills only the last three fields, spells back the tail, and its line group has 4-6 digits |
| Phone.ParseAfterArea | js/components.js:11 | a successful parse after the area digits keeps the first fields, spells back the input, and its pieces are well formed |
| Phone.Parse | js/components.js:11 | what the parser returns is well formed and spells exactly the input |
| Phone.ParseComplete | js/components.js:11 | the parser reads every well-formed rendering back to its parts, so greedy matching never misses a match |
| Phone.MatchesShape | js/components.js:11 | true iff the text is in the language of the pattern between its anchors |
| Phone.ValidatePhone | js/components.js:10-13 | true iff some slice that starts at a line start and ends at a line end (`m` flag) is in the language of the pattern |
| Phone.MatchDigits | js/components.js:11 | every match has 10 to 12 digits, starts with '+', '(' or a digit, and ends with a digit |
| Phone.AcceptsNumberOnLaterLine | js/components.js:10-13 | "call\n555.123.4567" is accepted, because the number sits on its own line |
| Phone.RejectsShortAreaCode | js/components.js:11 | "12-345-6789" is not in the language of the pattern |
| DarkMode.Init | js/components.js:132-143 | storage is never written; with no switch, or no truthy stored preference, nothing changes; otherwise the body and the switch both become dark |
| DarkMode.Click | js/components.js:146-152 | with no switch nothing changes; otherwise both classes flip, `darkMode` stores the new body state, other keys are untouched, and a switch in step with the body stays in step |
| DarkMode.ClickSavesPreference | js/components.js:146-151 | after a click the stored preference is truthy iff the body is dark |
| DarkMode.ClickTwice | js/components.js:146-148 | two clicks restore both classes |
| DarkMode.InitAfterClickRestores | js/components.js:137-151 | `init` on a fresh page leaves the switch and the body in step, and after a click it restores the body state the click saved |

## Left out

- Scrolling: the smooth scroll at the end of `navigateToPage` (js/main.js:52-56), anchor scrolling with its `offsetTop - 80` offset, the header shadow and the fade-in animations. These are geometry and presentation effects with floating-point positions.
- `ApiService.get` and `ApiService.post`: network fetch, promises and JSON parsing of responses are I/O.
- `Storage` internals: `localStorage` and `JSON.stringify`/`JSON.parse` are browser APIs. Storage is a map from keys to already parsed JSON values. A stored text that is not valid JSON, which would make `Storage.get` throw, is not represented.
- `LazyLoad`: IntersectionObserver callbacks, the `setTimeout` debounce and pixel geometry are timer- and browser-driven. Its listener-removal branch (js/components.js:110-114) runs only on a page with no lazy images, because the list taken at js/components.js:76 is a static snapshot.
- `Print`: `window.open`, HTML templating and the print dialog are I/O.
- Listener registration and `DOMContentLoaded` wiring. A `#` nav-link click fires three listeners. The model covers the two that change state, in their registration order. The third is the smooth-scroll listener of js/main.js:100-115, which is scrolling and is left out with it.
- Chars.AsciiLower: `toLowerCase` is approximated by ASCII folding. Unicode case mappings are left out, including those that yield ASCII (KELVIN SIGN to 'k') or change the length (U+0130).
- Email.ValidateEmail: characters are Unicode scalar values, not UTF-16 code units. A supplementary character counts as one character where the regex sees two. This changes no verdict of these patterns, because every class that admits one surrogate admits the other.
- Router.Navigate: elements and nav links are separate lists. An element that is both a `.nav-link` and a target of `getElementById` is not represented.
- Menu.Toggle: assumes the markup's three hamburger spans exist. With fewer spans the source raises on `spans[i]` (js/main.js:11-13), and that case is not modelled.
- NavClick.NavLinkClicked: the `.nav-menu`, `.lightbox-modal` and dark-mode switch elements are kept apart from the elements `getElementById` searches, so they are assumed never to be a navigation target. In the source a nav link whose href is `#` plus the menu's id reopens the menu (js/main.js:20, then 39-41), one aimed at the modal adds `active` without locking scrolling, and one aimed at the switch lights it without dark mode (js/components.js:142, 148). The model represents none of these.
- Menu.Reset: assumes the same three spans. With fewer spans js/main.js:24-26 raise in the same way, after the menu itself has been closed; that case is not modelled.
- Router.DropFirst: `substring(1)` removes one UTF-16 code unit, while the model removes one whole character. The two differ only for an href whose first character lies outside the Basic Multilingual Plane, where the source keeps a lone surrogate that a Dafny `char` cannot hold.
- DarkMode.Init: numbers in stored JSON are integers; `NaN` and `-0` are not represented, since `JSON.stringify` of a boolean never produces them.
- `validateRequired` on a non-string throws in the source. `validateEmail` and `validatePhone` first coerce their argument with `String(…)` (js/components.js:7, 12), so a number such as 5551234567 passes `validatePhone`. Inputs here are always strings, and that coercion is not modelled.

=== FILE: chars.dfy ===
/** Character classes used by the form validators and the router. */
module Chars {

  /** The ECMAScript LineTerminator code points: the characters `.` refuses and
      at which `^` and `$` anchor under the `m` flag. */
  predicate IsLineTerminator(c: char) {
    c == '\n' || c == '\r' || c == '\U{2028}' || c == '\U{2029}'
  }

  /** ECMAScript WhiteSpace together with LineTerminator: the class `\s` stands
      for and the set `String.prototype.trim` removes. The space separators are
      those of Unicode 6.3 and later (U+180E is no longer one of them). */
  predicate IsJsWhitespace(c: char) {
    || c == '\t' || c == '\U{000B}' || c == '\U{000C}' || c == ' '
    || c == '\U{00A0}' || c == '\U{FEFF}' || c == '\U{1680}'
    || ('\U{2000}' <= c <= '\U{200A}')
    || c == '\U{202F}' || c == '\U{205F}' || c == '\U{3000}'
    || IsLineTerminator(c)
  }

  predicate IsDigit(c: char) {
    '0' <= c <= '9'
  }

  predicate IsAsciiUpper(c: char) {
    'A' <= c <= 'Z'
  }

  predicate IsAsciiLetter(c: char) {
    IsAsciiUpper(c) || 'a' <= c <= 'z'
  }

  predicate AllDigits(s: string) {
    forall i :: 0 <= i < |s| ==> IsDigit(s[i])
  }

  /** Lower-cases one character, folding the ASCII letters only. */
  function LowerChar(c: char): (r: char)
    ensures !IsAsciiUpper(r)
    ensures IsAsciiUpper(c) ==> r != c && IsAsciiLetter(r)
    ensures IsAsciiUpper(c) ==> r as int - 'a' as int == c as int - 'A' as int
    ensures !IsAsciiUpper(c) ==> r == c
  {
    if IsAsciiUpper(c) then (c as int + 32) as char else c
  }

  /** Lower-cases a string character by character (ASCII folding). */
  function AsciiLower(s: string): (r: string)
    ensures |r| == |s|
    ensures forall i :: 0 <= i < |s| ==> r[i] == LowerChar(s[i])
  {
    seq(|s|, i requires 0 <= i < |s| => LowerChar(s[i]))
  }

  /** Folding twice is folding once. */
  lemma AsciiLowerIdempotent(s: string)
    ensures AsciiLower(AsciiLower(s)) == AsciiLower(s)
  {
  }

  /** Number of ASCII digits in `s`. */
  function CountDigits(s: string): (n: nat)
    ensures n <= |s|
    ensures AllDigits(s) ==> n == |s|
  {
    if |s| == 0 then 0
    else (if IsDigit(s[0]) then 1 else 0) + CountDigits(s[1..])
  }

  /** Digit counting distributes over concatenation. */
  lemma {:induction false} CountDigitsAppend(a: string, b: string)
    ensures CountDigits(a + b) == CountDigits(a) + CountDigits(b)
    decreases |a|
  {
    if |a| == 0 {
      assert a + b == b;
    } else {
      assert (a + b)[1..] == a[1..] + b;
      CountDigitsAppend(a[1..], b);
    }
  }
}

=== FILE: darkmode.dfy ===
/** The dark-mode switch of js/components.js. Local storage is abstracted as a
    map from keys to the values `Storage.get` would return after parsing. */
module DarkMode {
  import opened Wrappers

  /** A parsed JSON value, as far as JavaScript truthiness tells them apart. */
  datatype Json = JNull | JBool(b: bool) | JNumber(n: int) | JString(s: string) | JCompound

  type Store = map<string, Json>

  const Key := "darkMode"

  datatype Ui = Ui(
    bodyDark: bool,         // body has `dark-mode`
    toggle: Option<bool>,   // `.dark-mode-toggle`, when present: whether it has `active`
    store: Store)

  /** JavaScript truthiness of a parsed value. */
  predicate Truthy(v: Json) {
    match v
    case JNull => false
    case JBool(b) => b
    case JNumber(n) => n != 0
    case JString(s) => s != ""
    case JCompound => true
  }

  /** `Storage.get(key) || false`, read as a condition. */
  predicate StoredPreference(store: Store) {
    Key in store && Truthy(store[Key])
  }

  /** The switch and the page agree. */
  predicate InStep(ui: Ui) {
    ui.toggle == Some(ui.bodyDark)
  }

  /** `DarkMode.init` (lines 132-143). */
  function Init(ui: Ui): (r: Ui)
    ensures r.store == ui.store && r.toggle.Some? == ui.toggle.Some?
    ensures ui.toggle.None? ==> r == ui
    ensures !StoredPreference(ui.store) ==> r == ui
    ensures ui.toggle.Some? && StoredPreference(ui.store) ==> r.bodyDark && r.toggle == Some(true)
  {
    if ui.toggle.None? then ui
    else if StoredPreference(ui.store) then ui.(bodyDark := true, toggle := Some(true))
    else ui
  }

  /** A click on the switch (lines 146-152): both classes toggle and the new
      state of the body is saved. Without a switch there is nothing to click. */
  function Click(ui: Ui): (r: Ui)
    ensures ui.toggle.None? ==> r == ui
    ensures ui.toggle.Some? ==> r.bodyDark != ui.bodyDark && r.toggle == Some(!ui.toggle.value)
    ensures ui.toggle.Some? ==> Key in r.store && r.store[Key] == JBool(r.bodyDark)
    ensures forall k :: k != Key ==> (k in r.store <==> k in ui.store)
    ensures forall k :: k != Key && k in ui.store ==> r.store[k] == ui.store[k]
    ensures InStep(ui) ==> InStep(r)
  {
    match ui.toggle
    case None => ui
    case Some(active) =>
      var dark := !ui.bodyDark;
      Ui(dark, Some(!active), ui.store[Key := JBool(dark)])
  }

  /** After a click the stored preference is exactly the body's state, so a
      reload would restore it. */
  lemma ClickSavesPreference(ui: Ui)
    requires ui.toggle.Some?
    ensures StoredPreference(Click(ui).store) <==> Click(ui).bodyDark
  {
  }

  /** Two clicks restore both classes. */
  lemma ClickTwice(ui: Ui)
    ensures Click(Click(ui)).bodyDark == ui.bodyDark
    ensures Click(Click(ui)).toggle == ui.toggle
  {
  }

  /** A freshly served page (no classes) is in step after `init`, and a reload
      after any click comes back to the state the click left. */
  lemma InitAfterClickRestores(ui: Ui)
    requires ui.toggle.Some?
    ensures InStep(Init(Ui(false, Some(false), ui.store)))
    ensures Init(Ui(false, Some(false), Click(ui).store)).bodyDark == Click(ui).bodyDark
  {
  }
}

=== FILE: dotted.dfy ===
/** Dot-separated strings: the shape `x(\.x)*` that both halves of an email
    address are built from. `Join` glues groups with '.', `Split` cuts at
    every '.', and each undoes the other. */
module Dotted {

  predicate DotFree(g: string) {
    '.' !in g
  }

  /** The groups glued together with a '.' between neighbours. */
  function Join(gs: seq<string>): (r: string)
    requires |gs| >= 1
    decreases |gs|
  {
    if |gs| == 1 then gs[0] else gs[0] + ['.'] + Join(gs[1..])
  }

  /** The text between consecutive dots, first to last. */
  function Split(t: string): (gs: seq<string>)
    ensures |gs| >= 1
    ensures forall i :: 0 <= i < |gs| ==> DotFree(gs[i])
    ensures Join(gs) == t
  {
    if |t| == 0 then [""]
    else
      var rest := Split(t[1..]);
      if t[0] == '.' then
        assert ([""] + rest)[1..] == rest;
        [""] + rest
      else
        var gs := [[t[0]] + rest[0]] + rest[1..];
        assert gs[1..] == rest[1..];
        assert t == [t[0]] + t[1..];
        gs
  }

  /** A dot-free string is a single group. */
  lemma {:induction false} SplitDotFree(a: string)
    requires DotFree(a)
    ensures Split(a) == [a]
    decreases |a|
  {
    if |a| > 0 {
      SplitDotFree(a[1..]);
      assert [a[0]] + a[1..] == a;
    }
  }

  /** A dot-free prefix followed by a dot is split off as the first group. */
  lemma {:induction false} SplitFirstGroup(a: string, t: string)
    requires DotFree(a)
    ensures Split(a + ['.'] + t) == [a] + Split(t)
    decreases |a|
  {
    var u := a + ['.'] + t;
    if |a| == 0 {
      assert u == ['.'] + t;
      assert u[1..] == t;
    } else {
      assert u[1..] == a[1..] + ['.'] + t;
      SplitFirstGroup(a[1..], t);
      var rest := Split(u[1..]);
      assert rest[0] == a[1..] && rest[1..] == Split(t);
      assert u[0] == a[0] && a[0] in a;
      assert [a[0]] + a[1..] == a;
    }
  }

  /** Splitting a join of dot-free groups gives the groups back. */
  lemma {:induction false} SplitJoin(gs: seq<string>)
    requires |gs| >= 1
    requires forall i :: 0 <= i < |gs| ==> DotFree(gs[i])
    ensures Split(Join(gs)) == gs
    decreases |gs|
  {
    if |gs| == 1 {
      SplitDotFree(gs[0]);
    } else {
      SplitJoin(gs[1..]);
      SplitFirstGroup(gs[0], Join(gs[1..]));
      assert [gs[0]] + gs[1..] == gs;
    }
  }

  /** A character other than '.' that no group holds is not in the join. */
  lemma {:induction false} JoinAvoids(gs: seq<string>, c: char)
    requires |gs| >= 1 && c != '.'
    requires forall i :: 0 <= i < |gs| ==> c !in gs[i]
    ensures c !in Join(gs)
    decreases |gs|
  {
    if |gs| > 1 {
      JoinAvoids(gs[1..], c);
    }
  }

  /** Joining non-empty dot-free groups never yields a leading dot, a
      trailing dot or two dots in a row. */
  lemma {:induction false} JoinNoStrayDots(gs: seq<string>)
    requires |gs| >= 1
    requires forall i :: 0 <= i < |gs| ==> |gs[i]| > 0 && DotFree(gs[i])
    ensures |Join(gs)| > 0
    ensures Join(gs)[0] != '.' && Join(gs)[|Join(gs)| - 1] != '.'
    ensures forall i :: 0 <= i < |Join(gs)| - 1 ==> !(Join(gs)[i] == '.' && Join(gs)[i + 1] == '.')
    decreases |gs|
  {
    var g := gs[0];
    assert g[|g| - 1] in g;
    if |gs| > 1 {
      JoinNoStrayDots(gs[1..]);
      var rest := Join(gs[1..]);
      var t := Join(gs);
      assert t == g + ['.'] + rest;
      forall i | 0 <= i < |t| - 1
        ensures !(t[i] == '.' && t[i + 1] == '.')
      {
        if i < |g| {
          assert t[i] == g[i] && g[i] in g;
        } else if i > |g| {
          assert t[i] == rest[i - |g| - 1] && t[i + 1] == rest[i - |g|];
        } else {
          assert t[i + 1] == rest[0];
        }
      }
      assert t[|t| - 1] == rest[|rest| - 1];
    }
  }

  /** The join of two or more groups ends with '.' and then the last group. */
  lemma {:induction false} JoinEndsInLast(gs: seq<string>)
    requires |gs| >= 2
    ensures |Join(gs)| > |gs[|gs| - 1]|
    ensures Join(gs)[|Join(gs)| - |gs[|gs| - 1]| - 1] == '.'
    ensures Join(gs)[|Join(gs)| - |gs[|gs| - 1]|..] == gs[|gs| - 1]
    decreases |gs|
  {
    var last := gs[|gs| - 1];
    var j := Join(gs[1..]);
    assert Join(gs) == (gs[0] + ['.']) + j;
    if |gs| == 2 {
      assert Join(gs) == gs[0] + (['.'] + last);
      SuffixOfAppend(gs[0], ['.'] + last, |last| + 1);
    } else {
      JoinEndsInLast(gs[1..]);
      assert gs[1..][|gs[1..]| - 1] == last;
      SuffixOfAppend(gs[0] + ['.'], j, |last| + 1);
      assert j[|j| - |last| - 1..][1..] == j[|j| - |last|..];
    }
  }

  lemma SuffixOfAppend(x: string, y: string, m: nat)
    requires m <= |y|
    ensures (x + y)[|x + y| - m..] == y[|y| - m..]
  {
  }
}

=== FILE: email.dfy ===
/** `FormValidator.validateEmail` of js/components.js. The regular expression
    of line 6 is stated as a grammar over strings: a local part, '@', a
    domain. Each piece has a recognizer proved equal to its grammar. */
module Email {
  import opened Wrappers
  import opened Chars
  import Dotted

  /** `[^<>()\[\]\\.,;:\s@"]`: a character allowed in an unquoted atom. */
  predicate IsAtomChar(c: char) {
    c !in "<>()[]\\.,;:@\"" && !IsJsWhitespace(c)
  }

  /** `[a-zA-Z\-0-9]`: a character allowed in a domain label. */
  predicate IsLabelChar(c: char) {
    IsAsciiLetter(c) || IsDigit(c) || c == '-'
  }

  predicate IsAtom(g: string) {
    |g| > 0 && forall i :: 0 <= i < |g| ==> IsAtomChar(g[i])
  }

  predicate IsLabel(g: string) {
    |g| > 0 && forall i :: 0 <= i < |g| ==> IsLabelChar(g[i])
  }

  /** `[a-zA-Z]{2,}` */
  predicate IsTld(g: string) {
    |g| >= 2 && forall i :: 0 <= i < |g| ==> IsAsciiLetter(g[i])
  }

  /** `[0-9]{1,3}`: no range check, "999" is as good as "255". */
  predicate IsOctetText(g: string) {
    1 <= |g| <= 3 && AllDigits(g)
  }

  // ---------------------------------------------------------------------
  // The grammar
  // ---------------------------------------------------------------------

  /** `[^…]+(\.[^…]+)*`: non-empty atoms joined by single dots. */
  ghost predicate DotAtoms(l: string) {
    exists gs :: |gs| >= 1 && (forall i :: 0 <= i < |gs| ==> IsAtom(gs[i])) && Dotted.Join(gs) == l
  }

  /** `".+"`: a quote, at least one character other than a line terminator,
      a quote. Quotes and '@' may appear inside. */
  predicate Quoted(l: string) {
    && |l| >= 3 && l[0] == '"' && l[|l| - 1] == '"'
    && forall i :: 1 <= i < |l| - 1 ==> !IsLineTerminator(l[i])
  }

  ghost predicate LocalPart(l: string) {
    DotAtoms(l) || Quoted(l)
  }

  /** `\[[0-9]{1,3}\.[0-9]{1,3}\.[0-9]{1,3}\.[0-9]{1,3}]` */
  ghost predicate IpLiteral(d: string) {
    && |d| >= 2 && d[0] == '[' && d[|d| - 1] == ']'
    && exists gs :: |gs| == 4 && (forall i :: 0 <= i < 4 ==> IsOctetText(gs[i]))
                    && Dotted.Join(gs) == d[1..|d| - 1]
  }

  /** `([a-zA-Z\-0-9]+\.)+[a-zA-Z]{2,}`: one or more labels, each followed by a
      dot, then a top-level label of two letters or more. */
  ghost predicate HostName(d: string) {
    exists gs :: && |gs| >= 2
                 && (forall i :: 0 <= i < |gs| - 1 ==> IsLabel(gs[i]))
                 && IsTld(gs[|gs| - 1])
                 && Dotted.Join(gs) == d
  }

  ghost predicate DomainPart(d: string) {
    IpLiteral(d) || HostName(d)
  }

  /** The whole pattern, anchored at both ends (no `m` flag). */
  ghost predicate EmailShape(t: string) {
    exists k :: 0 <= k < |t| && t[k] == '@' && LocalPart(t[..k]) && DomainPart(t[k + 1..])
  }

  // ---------------------------------------------------------------------
  // Recognizers
  // ---------------------------------------------------------------------

  function MatchesDotAtoms(l: string): (r: bool)
    ensures r <==> DotAtoms(l)
  {
    var gs := Dotted.Split(l);
    if forall i :: 0 <= i < |gs| ==> IsAtom(gs[i]) then true
    else
      assert !DotAtoms(l) by {
        forall hs | |hs| >= 1 && (forall i :: 0 <= i < |hs| ==> IsAtom(hs[i])) && Dotted.Join(hs) == l
          ensures false
        {
          assert forall i :: 0 <= i < |hs| ==> Dotted.DotFree(hs[i]) by {
            forall i | 0 <= i < |hs| ensures Dotted.DotFree(hs[i]) {
              assert IsAtom(hs[i]);
            }
          }
          Dotted.SplitJoin(hs);
        }
      }
      false
  }

  function MatchesIpLiteral(d: string): (r: bool)
    ensures r <==> IpLiteral(d)
  {
    if |d| >= 2 && d[0] == '[' && d[|d| - 1] == ']' then
      var gs := Dotted.Split(d[1..|d| - 1]);
      if |gs| == 4 && forall i :: 0 <= i < 4 ==> IsOctetText(gs[i]) then true
      else
        assert !IpLiteral(d) by {
          forall hs | |hs| == 4 && (forall i :: 0 <= i < 4 ==> IsOctetText(hs[i]))
                      && Dotted.Join(hs) == d[1..|d| - 1]
            ensures false
          {
            assert forall i :: 0 <= i < |hs| ==> Dotted.DotFree(hs[i]) by {
              forall i | 0 <= i < |hs| ensures Dotted.DotFree(hs[i]) {
                assert IsOctetText(hs[i]);
              }
            }
            Dotted.SplitJoin(hs);
          }
        }
        false
    else false
  }

  function MatchesHostName(d: string): (r: bool)
    ensures r <==> HostName(d)
  {
    var gs := Dotted.Split(d);
    if && |gs| >= 2
       && (forall i :: 0 <= i < |gs| - 1 ==> IsLabel(gs[i]))
       && IsTld(gs[|gs| - 1])
    then true
    else
      assert !HostName(d) by {
        forall hs | && |hs| >= 2
                    && (forall i :: 0 <= i < |hs| - 1 ==> IsLabel(hs[i]))
                    && IsTld(hs[|hs| - 1])
                    && Dotted.Join(hs) == d
          ensures false
        {
          assert forall i :: 0 <= i < |hs| ==> Dotted.DotFree(hs[i]) by {
            forall i | 0 <= i < |hs| ensures Dotted.DotFree(hs[i]) {
              if i < |hs| - 1 { assert IsLabel(hs[i]); } else { assert IsTld(hs[i]); }
            }
          }
          Dotted.SplitJoin(hs);
        }
      }
      false
  }

  /** The domain grammar never produces an '@'. */
  lemma DomainHasNoAt(d: string)
    requires DomainPart(d)
    ensures '@' !in d
  {
    if IpLiteral(d) {
      var gs :| |gs| == 4 && (forall i :: 0 <= i < 4 ==> IsOctetText(gs[i]))
                && Dotted.Join(gs) == d[1..|d| - 1];
      Dotted.JoinAvoids(gs, '@');
      assert d == [d[0]] + d[1..|d| - 1] + [d[|d| - 1]];
    } else {
      var gs :| && |gs| >= 2
                && (forall i :: 0 <= i < |gs| - 1 ==> IsLabel(gs[i]))
                && IsTld(gs[|gs| - 1])
                && Dotted.Join(gs) == d;
      forall i | 0 <= i < |gs| ensures '@' !in gs[i] {
        if i < |gs| - 1 { assert IsLabel(gs[i]); } else { assert IsTld(gs[i]); }
      }
      Dotted.JoinAvoids(gs, '@');
    }
  }

  /** Position of the last occurrence of `c`. */
  function LastIndexOf(t: string, c: char): (r: Option<nat>)
    ensures r.Some? ==> r.value < |t| && t[r.value] == c && c !in t[r.value + 1..]
    ensures r.None? ==> c !in t
  {
    if |t| == 0 then None
    else if t[|t| - 1] == c then Some(|t| - 1)
    else
      assert t == t[..|t| - 1] + [t[|t| - 1]];
      match LastIndexOf(t[..|t| - 1], c)
      case None => None
      case Some(k) =>
        assert t[k + 1..] == t[..|t| - 1][k + 1..] + [t[|t| - 1]];
        Some(k)
  }

  /** The '@' in front of a domain is the last one in the text. */
  lemma AtBeforeDomainIsLast(t: string, k: nat)
    requires k < |t| && t[k] == '@' && DomainPart(t[k + 1..])
    ensures LastIndexOf(t, '@') == Some(k)
  {
    DomainHasNoAt(t[k + 1..]);
    assert t[k] in t;
  }

  /** Only the last '@' can separate the local part from the domain. */
  lemma EmailShapeAtLastAt(t: string, k: nat)
    requires LastIndexOf(t, '@') == Some(k)
    ensures EmailShape(t) <==> LocalPart(t[..k]) && DomainPart(t[k + 1..])
  {
    if EmailShape(t) {
      var k' :| 0 <= k' < |t| && t[k'] == '@' && LocalPart(t[..k']) && DomainPart(t[k' + 1..]);
      AtBeforeDomainIsLast(t, k');
    }
  }

  /** The pattern splits at the last '@', since the domain holds none. */
  function MatchesEmail(t: string): (r: bool)
    ensures r <==> EmailShape(t)
  {
    match LastIndexOf(t, '@')
    case None => false
    case Some(k) =>
      EmailShapeAtLastAt(t, k);
      (MatchesDotAtoms(t[..k]) || Quoted(t[..k]))
      && (MatchesIpLiteral(t[k + 1..]) || MatchesHostName(t[k + 1..]))
  }

  /** `validateEmail(email)` (lines 5-8): the pattern applied to the
      lower-cased text. */
  function ValidateEmail(email: string): (ok: bool)
    ensures ok <==> EmailShape(AsciiLower(email))
  {
    MatchesEmail(AsciiLower(email))
  }

  // ---------------------------------------------------------------------
  // Properties
  // ---------------------------------------------------------------------

  /** Case does not matter. */
  lemma ValidateEmailIgnoresCase(email: string)
    ensures ValidateEmail(email) == ValidateEmail(AsciiLower(email))
  {
    AsciiLowerIdempotent(email);
  }

  /** An unquoted local part never starts or ends with a dot, nor holds two
      dots in a row. */
  lemma DotAtomsNoStrayDots(l: string)
    requires DotAtoms(l)
    ensures |l| > 0 && l[0] != '.' && l[|l| - 1] != '.'
    ensures forall i :: 0 <= i < |l| - 1 ==> !(l[i] == '.' && l[i + 1] == '.')
  {
    var gs :| |gs| >= 1 && (forall i :: 0 <= i < |gs| ==> IsAtom(gs[i])) && Dotted.Join(gs) == l;
    forall i | 0 <= i < |gs| ensures |gs[i]| > 0 && Dotted.DotFree(gs[i]) {
      assert IsAtom(gs[i]);
    }
    Dotted.JoinNoStrayDots(gs);
  }

  /** A host name has a dot and ends in two letters or more after its last dot. */
  lemma HostNameEndsInTld(d: string)
    requires HostName(d)
    ensures exists k :: 0 < k < |d| - 2 && d[k] == '.' && IsTld(d[k + 1..])
  {
    var gs :| && |gs| >= 2
              && (forall i :: 0 <= i < |gs| - 1 ==> IsLabel(gs[i]))
              && IsTld(gs[|gs| - 1])
              && Dotted.Join(gs) == d;
    Dotted.JoinEndsInLast(gs);
    var k := |d| - |gs[|gs| - 1]| - 1;
    assert d[k + 1..] == gs[|gs| - 1];
    assert d[0] == gs[0][0];
  }

  // ---------------------------------------------------------------------
  // Examples
  // ---------------------------------------------------------------------

  /** A one-letter top-level label is refused. */
  lemma RejectsOneLetterTld()
    ensures !ValidateEmail("a@b.c")
  {
  }

  /** A leading dot in the local part is refused. */
  lemma RejectsLeadingDot()
    ensures !ValidateEmail(".a@b.co")
  {
  }

  /** The bracketed form checks digit counts only: 999 passes as an octet. */
  lemma IpLiteralUnranged(d: string)
    requires d == "[999.0.0.1]"
    ensures IpLiteral(d)
  {
    var octets := ["999", "0", "0", "1"];
    assert forall i :: 0 <= i < 4 ==> IsOctetText(octets[i]);
    assert Dotted.Join(octets) == d[1..|d| - 1];
  }

  /** A single-atom local part. */
  lemma SingleAtomLocal(l: string)
    requires IsAtom(l)
    ensures LocalPart(l)
  {
    assert Dotted.Join([l]) == l;
  }

  /** A whole address with a bracketed domain out of the 0-255 range. */
  lemma AcceptsUnrangedIpLiteral(email: string)
    requires email == "x@[999.0.0.1]"
    ensures ValidateEmail(email)
  {
    assert AsciiLower(email) == email;
    IpLiteralUnranged(email[2..]);
    SingleAtomLocal(email[..1]);
  }
}

=== FILE: lightbox.dfy ===
/** The gallery lightbox of js/main.js: clicking a `.gallery-item` shows its
    image in `.lightbox-modal`; the close button or a click on the backdrop
    hides it again. The body's `overflow` style locks scrolling meanwhile. */
module Lightbox {
  import opened Wrappers

  /** The `<img>` inside a gallery item, with its src and alt attributes. */
  datatype Img = Img(src: Option<string>, alt: Option<string>)

  /** A `.gallery-item`; `img` is what `querySelector('img')` returns. */
  datatype GalleryItem = GalleryItem(img: Option<Img>)

  datatype Lightbox = Lightbox(
    modalActive: bool,          // `.lightbox-modal` has `active`
    imageSrc: Option<string>,   // src attribute of `.lightbox-image`
    imageAlt: Option<string>,   // alt attribute of `.lightbox-image`
    overflow: string)           // `document.body.style.overflow`

  /** Where a click on the modal started. */
  datatype Target = Backdrop | Inside

  datatype HandlerError = NoImage

  /** Scrolling is locked exactly while the modal is shown. */
  predicate Consistent(lb: Lightbox) {
    lb.overflow == "hidden" <==> lb.modalActive
  }

  /** `setAttribute` stringifies its value, so a missing attribute copies as "null". */
  function AttributeText(v: Option<string>): (r: string)
    ensures v.Some? ==> r == v.value
    ensures v.None? ==> r == "null"
  {
    match v
    case Some(s) => s
    case None => "null"
  }

  /** A click on a gallery item (lines 74-84). An item with no `<img>` makes
      `querySelector` return null and the handler raise before any change. */
  function Open(lb: Lightbox, item: GalleryItem): (r: Result<Lightbox, HandlerError>)
    ensures item.img.None? <==> r.Err?
    ensures r.Ok? ==> r.value.modalActive && r.value.overflow == "hidden" && Consistent(r.value)
    ensures r.Ok? ==> && r.value.imageSrc == Some(AttributeText(item.img.value.src))
                      && r.value.imageAlt == Some(AttributeText(item.img.value.alt))
  {
    match item.img
    case None => Err(NoImage)
    case Some(img) =>
      Ok(Lightbox(true, Some(AttributeText(img.src)), Some(AttributeText(img.alt)), "hidden"))
  }

  /** A click on `.lightbox-close` (lines 86-89): hide and unlock, keep the image. */
  function Close(lb: Lightbox): (r: Lightbox)
    ensures !r.modalActive && r.overflow == "" && Consistent(r)
    ensures r.imageSrc == lb.imageSrc && r.imageAlt == lb.imageAlt
  {
    lb.(modalActive := false, overflow := "")
  }

  /** A click reaching `.lightbox-modal` (lines 92-97): only a click on the
      backdrop itself closes; a click on the image or any other descendant
      leaves everything as it was. */
  function ModalClick(lb: Lightbox, target: Target): (r: Lightbox)
    ensures target == Inside ==> r == lb
    ensures target == Backdrop ==> !r.modalActive && r.overflow == ""
    ensures r.imageSrc == lb.imageSrc && r.imageAlt == lb.imageAlt
    ensures Consistent(lb) ==> Consistent(r)
  {
    if target == Backdrop then Close(lb) else lb
  }

  /** Opening, then closing, shows the opened image's attributes and unlocks scrolling. */
  lemma OpenThenClose(lb: Lightbox, img: Img)
    ensures Open(lb, GalleryItem(Some(img))).Ok?
    ensures Close(Open(lb, GalleryItem(Some(img))).value)
              == Lightbox(false, Some(AttributeText(img.src)), Some(AttributeText(img.alt)), "")
  {
  }
}

=== FILE: menu.dfy ===
/** The mobile navigation menu of js/main.js: the `.nav-menu` element's
    `active` class and the three hamburger spans' animation classes. */
module Menu {

  datatype MenuState = MenuState(
    navActive: bool,     // `.nav-menu` has `active`
    rotateTop: bool,     // first span has `rotate-top`
    hideMiddle: bool,    // second span has `hide-middle`
    rotateBottom: bool)  // third span has `rotate-bottom`

  /** The menu and its hamburger icon agree: all four classes present or all absent. */
  predicate InStep(m: MenuState) {
    m.rotateTop == m.navActive && m.hideMiddle == m.navActive && m.rotateBottom == m.navActive
  }

  /** The page as first served: menu closed, icon un-animated. */
  const Closed := MenuState(false, false, false, false)

  /** A click on `.mobile-toggle` (lines 6-14): every class is toggled. */
  function Toggle(m: MenuState): (r: MenuState)
    ensures r.navActive != m.navActive
    ensures r.rotateTop != m.rotateTop && r.hideMiddle != m.hideMiddle && r.rotateBottom != m.rotateBottom
    ensures InStep(r) <==> InStep(m)
    ensures InStep(m) ==> (r == Closed <==> m.navActive)
  {
    MenuState(!m.navActive, !m.rotateTop, !m.hideMiddle, !m.rotateBottom)
  }

  /** A click on any `.nav-link` (lines 19-27): every class is removed. */
  function Reset(m: MenuState): (r: MenuState)
    ensures InStep(r) && !r.navActive
  {
    Closed
  }

  /** Two toggles restore the original state. */
  lemma ToggleTwice(m: MenuState)
    ensures Toggle(Toggle(m)) == m
  {
  }

  /** Resetting an already reset menu changes nothing. */
  lemma ResetIdempotent(m: MenuState)
    ensures Reset(Reset(m)) == Reset(m)
  {
  }
}

=== FILE: navclick.dfy ===
/** What one click on a `.nav-link` does to the page: the listener of line 19
    (menu reset) runs, then the listener of line 61 (navigation). A listener
    that raises does not stop the next one nor undo the previous one. */
module NavClick {
  import opened Wrappers
  import Menu
  import Router

  datatype PageState = PageState(menu: Menu.MenuState, doc: Router.Document)

  function NavLinkClicked(s: PageState, k: nat): (r: PageState)
    requires k < |s.doc.links|
    ensures r.menu == Menu.Closed
    ensures Router.SameShape(s.doc, r.doc)
    ensures s.doc.links[k].href.None? ==> r.doc == s.doc
    ensures (s.doc.links[k].href.Some? && |s.doc.links[k].href.value| > 0
             && s.doc.links[k].href.value[0] == '#') ==> r.doc.links[k].active
    // with an href, the click shows what `getElementById(href.substring(1))` finds
    ensures s.doc.links[k].href.Some? ==>
              var p := Router.DropFirst(s.doc.links[k].href.value);
              && (forall i :: Router.IsFirstWithId(s.doc.elements, i, p) ==> r.doc.elements[i].active)
              && (forall i :: (0 <= i < |s.doc.elements| && r.doc.elements[i].isPage && r.doc.elements[i].active)
                    ==> Router.IsFirstWithId(s.doc.elements, i, p))
              && (forall j :: 0 <= j < |s.doc.links| ==>
                    (r.doc.links[j].active <==> s.doc.links[j].href == Some(['#'] + p)))
              && (forall i :: (0 <= i < |s.doc.elements| && !s.doc.elements[i].isPage
                               && !Router.IsFirstWithId(s.doc.elements, i, p))
                    ==> r.doc.elements[i] == s.doc.elements[i])
  {
    var menu := Menu.Reset(s.menu);
    match Router.ClickNavLink(s.doc, k)
    case Ok(doc) => PageState(menu, doc)
    case Err(_) => PageState(menu, s.doc)
  }

  /** Clicking the same fragment link twice leaves the page as one click does. */
  lemma NavLinkClickedTwice(s: PageState, k: nat)
    requires k < |s.doc.links|
    ensures NavLinkClicked(NavLinkClicked(s, k), k) == NavLinkClicked(s, k)
  {
  }
}

=== FILE: phone.dfy ===
/** `FormValidator.validatePhone` of js/components.js. The pattern of line 11
    is stated as the set of strings `Render` produces from well-formed
    parts; a greedy parser recognizes exactly that set, and `ValidatePhone`
    searches the input for a line-anchored match as the `m` flag allows.
    The pattern's `i` flag changes nothing, since none of its classes holds
    a letter. */
module Phone {
  import opened Wrappers
  import opened Chars

  /** `[-\s\.]` */
  predicate IsSeparator(c: char) {
    c == '-' || c == '.' || IsJsWhitespace(c)
  }

  /** The pieces of a match of
      `[\+]?[(]?[0-9]{3}[)]?[-\s\.]?[(]?[0-9]{3}[)]?[-\s\.]?[0-9]{4,6}`. */
  datatype PhoneParts = PhoneParts(
    plus: bool, open1: bool, area: string, close1: bool, sep1: Option<char>,
    open2: bool, exchange: string, close2: bool, sep2: Option<char>, line: string)

  predicate IsSeparatorOption(s: Option<char>) {
    s.None? || IsSeparator(s.value)
  }

  predicate WellFormed(p: PhoneParts) {
    && |p.area| == 3 && AllDigits(p.area)
    && |p.exchange| == 3 && AllDigits(p.exchange)
    && 4 <= |p.line| <= 6 && AllDigits(p.line)
    && IsSeparatorOption(p.sep1) && IsSeparatorOption(p.sep2)
  }

  function Opt(present: bool, c: char): string {
    if present then [c] else []
  }

  function OptSep(s: Option<char>): string {
    match s
    case None => []
    case Some(c) => [c]
  }

  /** The text after the exchange digits: `[)]?[-\s\.]?[0-9]{4,6}`. */
  function AfterExchange(p: PhoneParts): string {
    Opt(p.close2, ')') + (OptSep(p.sep2) + p.line)
  }

  /** The text after the area digits. */
  function AfterArea(p: PhoneParts): string {
    Opt(p.close1, ')') + (OptSep(p.sep1) + (Opt(p.open2, '(') + (p.exchange + AfterExchange(p))))
  }

  /** The text the parts spell, piece after piece. */
  function Render(p: PhoneParts): string {
    Opt(p.plus, '+') + (Opt(p.open1, '(') + (p.area + AfterArea(p)))
  }

  /** The language of the pattern between its anchors. */
  ghost predicate PhoneShape(t: string) {
    exists p :: WellFormed(p) && Render(p) == t
  }

  // ---------------------------------------------------------------------
  // Greedy parsing
  // ---------------------------------------------------------------------

  /** Consume `c` if the text starts with it. */
  function TakeChar(t: string, c: char): (r: (bool, string))
    ensures Opt(r.0, c) + r.1 == t
    ensures !r.0 ==> (r.1 == [] || r.1[0] != c)
  {
    if |t| > 0 && t[0] == c then (true, t[1..]) else (false, t)
  }

  /** Consume a separator if the text starts with one. */
  function TakeSep(t: string): (r: (Option<char>, string))
    ensures IsSeparatorOption(r.0) && OptSep(r.0) + r.1 == t
    ensures r.0.None? ==> (r.1 == [] || !IsSeparator(r.1[0]))
  {
    if |t| > 0 && IsSeparator(t[0]) then (Some(t[0]), t[1..]) else (None, t)
  }

  /** Consume three digits, or fail. */
  function TakeDigits3(t: string): (r: Option<(string, string)>)
    ensures r.Some? ==> |r.value.0| == 3 && AllDigits(r.value.0) && r.value.0 + r.value.1 == t
  {
    if |t| >= 3 && AllDigits(t[..3]) then Some((t[..3], t[3..])) else None
  }

  /** Parses what follows the exchange digits into `d`'s last three fields. */
  function ParseAfterExchange(t: string, d: PhoneParts): (r: Option<PhoneParts>)
    ensures r.Some? ==> r.value == d.(close2 := r.value.close2, sep2 := r.value.sep2, line := r.value.line)
    ensures r.Some? ==> AfterExchange(r.value) == t
    ensures r.Some? ==> IsSeparatorOption(r.value.sep2) && 4 <= |r.value.line| <= 6 && AllDigits(r.value.line)
  {
    var (close2, t8) := TakeChar(t, ')');
    var (sep2, line) := TakeSep(t8);
    if 4 <= |line| <= 6 && AllDigits(line) then Some(d.(close2 := close2, sep2 := sep2, line := line))
    else None
  }

  /** Parses what follows the area digits into `d`'s last seven fields. */
  function ParseAfterArea(t: string, d: PhoneParts): (r: Option<PhoneParts>)
    ensures r.Some? ==> r.value.plus == d.plus && r.value.open1 == d.open1 && r.value.area == d.area
    ensures r.Some? ==> AfterArea(r.value) == t
    ensures r.Some? ==> && IsSeparatorOption(r.value.sep1) && IsSeparatorOption(r.value.sep2)
                        && |r.value.exchange| == 3 && AllDigits(r.value.exchange)
                        && 4 <= |r.value.line| <= 6 && AllDigits(r.value.line)
  {
    var (close1, t4) := TakeChar(t, ')');
    var (sep1, t5) := TakeSep(t4);
    var (open2, t6) := TakeChar(t5, '(');
    match TakeDigits3(t6)
    case None => None
    case Some((exchange, t7)) =>
      ParseAfterExchange(t7, d.(close1 := close1, sep1 := sep1, open2 := open2, exchange := exchange))
  }

  /** Each optional piece is taken when present: no later piece of the
      pattern could start with the same character, so there is never
      anything to backtrack to. What the parser returns spells the input. */
  function Parse(t: string): (r: Option<PhoneParts>)
    ensures r.Some? ==> WellFormed(r.value) && Render(r.value) == t
  {
    var (plus, t1) := TakeChar(t, '+');
    var (open1, t2) := TakeChar(t1, '(');
    match TakeDigits3(t2)
    case None => None
    case Some((area, t3)) =>
      ParseAfterArea(t3, PhoneParts(plus, open1, area, false, None, false, "", false, None, ""))
  }

  /** Taking an optional character from text that does not begin with it. */
  lemma TakeCharAbsent(present: bool, c: char, rest: string)
    requires rest == [] || rest[0] != c
    ensures TakeChar(Opt(present, c) + rest, c) == (present, rest)
  {
    if !present {
      assert Opt(present, c) + rest == rest;
    }
  }

  lemma TakeSepAbsent(s: Option<char>, rest: string)
    requires IsSeparatorOption(s)
    requires rest == [] || !IsSeparator(rest[0])
    ensures TakeSep(OptSep(s) + rest) == (s, rest)
  {
    if s.None? {
      assert OptSep(s) + rest == rest;
    }
  }

  lemma TakeDigits3Of(ds: string, rest: string)
    requires |ds| == 3 && AllDigits(ds)
    ensures TakeDigits3(ds + rest) == Some((ds, rest))
  {
  }

  lemma ParseAfterExchangeComplete(p: PhoneParts, d: PhoneParts)
    requires WellFormed(p)
    ensures ParseAfterExchange(AfterExchange(p), d) == Some(d.(close2 := p.close2, sep2 := p.sep2, line := p.line))
  {
    var s8 := OptSep(p.sep2) + p.line;
    if p.sep2.Some? {
      assert s8[0] == p.sep2.value;
    } else {
      assert s8 == p.line;
    }
    TakeCharAbsent(p.close2, ')', s8);
    TakeSepAbsent(p.sep2, p.line);
  }

  lemma ParseAfterAreaComplete(p: PhoneParts, d: PhoneParts)
    requires WellFormed(p)
    ensures ParseAfterArea(AfterArea(p), d)
            == Some(d.(close1 := p.close1, sep1 := p.sep1, open2 := p.open2, exchange := p.exchange,
                       close2 := p.close2, sep2 := p.sep2, line := p.line))
  {
    var s7 := AfterExchange(p);
    var s6 := p.exchange + s7;
    var s5 := Opt(p.open2, '(') + s6;
    var s4 := OptSep(p.sep1) + s5;
    assert s6[0] == p.exchange[0];
    TakeCharAbsent(p.close1, ')', s4);
    TakeSepAbsent(p.sep1, s5);
    TakeCharAbsent(p.open2, '(', s6);
    TakeDigits3Of(p.exchange, s7);
    ParseAfterExchangeComplete(p, d.(close1 := p.close1, sep1 := p.sep1, open2 := p.open2, exchange := p.exchange));
  }

  /** The parser reads back every well-formed rendering: the pattern is
      unambiguous and the greedy choice is always the right one. */
  lemma ParseComplete(p: PhoneParts)
    requires WellFormed(p)
    ensures Parse(Render(p)) == Some(p)
  {
    var s3 := AfterArea(p);
    var s2 := p.area + s3;
    var s1 := Opt(p.open1, '(') + s2;
    assert s2[0] == p.area[0];
    TakeCharAbsent(p.plus, '+', s1);
    TakeCharAbsent(p.open1, '(', s2);
    TakeDigits3Of(p.area, s3);
    ParseAfterAreaComplete(p, PhoneParts(p.plus, p.open1, p.area, false, None, false, "", false, None, ""));
  }

  /** Recognizer for the anchored pattern. */
  function MatchesShape(t: string): (r: bool)
    ensures r <==> PhoneShape(t)
  {
    match Parse(t)
    case Some(p) => true
    case None =>
      assert !PhoneShape(t) by {
        forall p | WellFormed(p) && Render(p) == t ensures false {
          ParseComplete(p);
        }
      }
      false
  }

  // ---------------------------------------------------------------------
  // Searching with the `m` flag
  // ---------------------------------------------------------------------

  /** `^` under the `m` flag: the start, or just after a line terminator. */
  predicate LineStart(s: string, i: int) {
    i == 0 || (0 < i <= |s| && IsLineTerminator(s[i - 1]))
  }

  /** `$` under the `m` flag: the end, or just before a line terminator. */
  predicate LineEnd(s: string, j: int) {
    j == |s| || (0 <= j < |s| && IsLineTerminator(s[j]))
  }

  ghost predicate MatchAt(s: string, i: int, j: int) {
    0 <= i <= j <= |s| && LineStart(s, i) && LineEnd(s, j) && PhoneShape(s[i..j])
  }

  /** `re.test(s)`: some line-anchored slice matches. */
  ghost predicate PhoneValid(s: string) {
    exists i, j :: MatchAt(s, i, j)
  }

  /** `validatePhone(phone)` (lines 10-13): try every start and end. */
  method ValidatePhone(phone: string) returns (ok: bool)
    ensures ok <==> PhoneValid(phone)
  {
    var i := 0;
    while i <= |phone|
      invariant 0 <= i <= |phone| + 1
      invariant forall i', j' :: 0 <= i' < i ==> !MatchAt(phone, i', j')
    {
      var j := i;
      while j <= |phone|
        invariant i <= j <= |phone| + 1
        invariant forall j' :: j' < j ==> !MatchAt(phone, i, j')
      {
        if LineStart(phone, i) && LineEnd(phone, j) && MatchesShape(phone[i..j]) {
          assert MatchAt(phone, i, j);
          return true;
        }
        j := j + 1;
      }
      i := i + 1;
    }
    return false;
  }

  // ---------------------------------------------------------------------
  // Properties
  // ---------------------------------------------------------------------

  /** A match holds ten to twelve digits, begins with '+', '(' or a digit
      and ends with a digit. */
  lemma MatchDigits(t: string)
    requires PhoneShape(t)
    ensures 10 <= CountDigits(t) <= 12
    ensures |t| > 0 && (t[0] == '+' || t[0] == '(' || IsDigit(t[0])) && IsDigit(t[|t| - 1])
  {
    var p :| WellFormed(p) && Render(p) == t;
    AfterAreaDigits(p);
    var s3 := AfterArea(p);
    var s2 := p.area + s3;
    var s1 := Opt(p.open1, '(') + s2;
    CountDigitsOfDigits(p.area, s3);
    CountDigitsSkipsOpt(p.open1, '(', s2);
    CountDigitsSkipsOpt(p.plus, '+', s1);
    LastOfAppend(p.area, s3);
    LastOfAppend(Opt(p.open1, '('), s2);
    LastOfAppend(Opt(p.plus, '+'), s1);
    assert s2[0] == p.area[0];
  }

  /** Digits and last character of the text after the area digits. */
  lemma AfterAreaDigits(p: PhoneParts)
    requires WellFormed(p)
    ensures CountDigits(AfterArea(p)) == 3 + |p.line|
    ensures |AfterArea(p)| > 0 && IsDigit(AfterArea(p)[|AfterArea(p)| - 1])
  {
    AfterExchangeDigits(p);
    var s7 := AfterExchange(p);
    var s6 := p.exchange + s7;
    var s5 := Opt(p.open2, '(') + s6;
    var s4 := OptSep(p.sep1) + s5;
    CountDigitsOfDigits(p.exchange, s7);
    CountDigitsSkipsOpt(p.open2, '(', s6);
    CountDigitsSkipsSep(p.sep1, s5);
    CountDigitsSkipsOpt(p.close1, ')', s4);
    LastOfAppend(p.exchange, s7);
    LastOfAppend(Opt(p.open2, '('), s6);
    LastOfAppend(OptSep(p.sep1), s5);
    LastOfAppend(Opt(p.close1, ')'), s4);
  }

  /** Digits and last character of the text after the exchange digits. */
  lemma AfterExchangeDigits(p: PhoneParts)
    requires WellFormed(p)
    ensures CountDigits(AfterExchange(p)) == |p.line|
    ensures |AfterExchange(p)| > 0 && IsDigit(AfterExchange(p)[|AfterExchange(p)| - 1])
  {
  }

  lemma CountDigitsSkipsOpt(present: bool, c: char, rest: string)
    requires !IsDigit(c)
    ensures CountDigits(Opt(present, c) + rest) == CountDigits(rest)
  {
    CountDigitsAppend(Opt(present, c), rest);
  }

  lemma CountDigitsSkipsSep(s: Option<char>, rest: string)
    requires IsSeparatorOption(s)
    ensures CountDigits(OptSep(s) + rest) == CountDigits(rest)
  {
    CountDigitsAppend(OptSep(s), rest);
  }

  lemma CountDigitsOfDigits(ds: string, rest: string)
    requires AllDigits(ds)
    ensures CountDigits(ds + rest) == |ds| + CountDigits(rest)
  {
    CountDigitsAppend(ds, rest);
  }

  lemma LastOfAppend(a: string, b: string)
    requires |b| > 0
    ensures (a + b)[|a + b| - 1] == b[|b| - 1]
  {
  }

  // ---------------------------------------------------------------------
  // Examples
  // ---------------------------------------------------------------------

  /** With the `m` flag a number on its own line is found after other text. */
  lemma AcceptsNumberOnLaterLine(s: string)
    requires s == "call\n555.123.4567"
    ensures PhoneValid(s)
  {
    var p := PhoneParts(false, false, "555", false, Some('.'), false, "123", false, Some('.'), "4567");
    assert WellFormed(p) && Render(p) == s[5..];
    assert MatchAt(s, 5, |s|);
  }

  /** A first group of two digits is not a phone number. */
  lemma RejectsShortAreaCode(t: string)
    requires t == "12-345-6789"
    ensures !PhoneShape(t)
  {
    assert TakeChar(t, '+') == (false, t) && TakeChar(t, '(') == (false, t);
    assert t[..3][2] == '-';
    assert TakeDigits3(t) == None;
    assert Parse(t) == None;
    assert !MatchesShape(t);
  }
}

=== FILE: required.dfy ===
/** `FormValidator.validateRequired` of js/components.js: a value is present
    when `trim()` leaves something. */
module Required {
  import opened Chars

  predicate AllWhitespace(s: string) {
    forall i :: 0 <= i < |s| ==> IsJsWhitespace(s[i])
  }

  /** Drops leading whitespace and line terminators. */
  function TrimStart(s: string): (r: string)
    ensures |r| <= |s| && r == s[|s| - |r|..]
    ensures forall i :: 0 <= i < |s| - |r| ==> IsJsWhitespace(s[i])
    ensures r == "" || !IsJsWhitespace(r[0])
  {
    if |s| > 0 && IsJsWhitespace(s[0]) then TrimStart(s[1..]) else s
  }

  /** Drops trailing whitespace and line terminators. */
  function TrimEnd(s: string): (r: string)
    ensures |r| <= |s| && r == s[..|r|]
    ensures forall i :: |r| <= i < |s| ==> IsJsWhitespace(s[i])
    ensures r == "" || !IsJsWhitespace(r[|r| - 1])
  {
    if |s| > 0 && IsJsWhitespace(s[|s| - 1]) then TrimEnd(s[..|s| - 1]) else s
  }

  /** `r` is the slice of `s` at `i` and only whitespace surrounds it. */
  predicate SliceWithBlankMargins(s: string, r: string, i: int) {
    && 0 <= i <= |s| - |r| && r == s[i..i + |r|]
    && (forall k :: 0 <= k < i ==> IsJsWhitespace(s[k]))
    && (forall k :: i + |r| <= k < |s| ==> IsJsWhitespace(s[k]))
  }

  /** `String.prototype.trim`: the longest slice with no whitespace at either end. */
  function Trim(s: string): (r: string)
    ensures exists i :: SliceWithBlankMargins(s, r, i)
    ensures r == "" || (!IsJsWhitespace(r[0]) && !IsJsWhitespace(r[|r| - 1]))
  {
    var t := TrimStart(s);
    var r := TrimEnd(t);
    var i := |s| - |t|;
    assert r == s[i..i + |r|];
    assert forall k :: i + |r| <= k < |s| ==> s[k] == t[k - i];
    assert SliceWithBlankMargins(s, r, i);
    r
  }

  /** `validateRequired(value)` (lines 15-17). */
  function ValidateRequired(value: string): (ok: bool)
    ensures ok <==> exists i :: 0 <= i < |value| && !IsJsWhitespace(value[i])
  {
    TrimEmptyIffBlank(value);
    Trim(value) != ""
  }

  /** `trim()` leaves nothing exactly when every character is whitespace. */
  lemma TrimEmptyIffBlank(s: string)
    ensures Trim(s) == "" <==> AllWhitespace(s)
  {
  }

  /** Trimming a trimmed value changes nothing. */
  lemma TrimIdempotent(s: string)
    ensures Trim(Trim(s)) == Trim(s)
  {
  }
}

=== FILE: router.dfy ===
/** The single-page view router of js/main.js: switching the visible page
    section and keeping the navigation links' highlight in step with it.
    The document is abstracted into two plain sequences, the elements that
    `getElementById` searches and the `.nav-link` anchors. */
module Router {
  import opened Wrappers

  /** An element of the document, in tree order. `id` is its id attribute
      ("" when it has none: such an element has no ID), `isPage` says whether
      it carries the `page` class and `active` whether it carries `active`. */
  datatype Element = Element(id: string, isPage: bool, active: bool)

  /** A `.nav-link` anchor: its href attribute (None when absent) and whether
      it carries the `active` class. */
  datatype NavLink = NavLink(href: Option<string>, active: bool)

  datatype Document = Document(elements: seq<Element>, links: seq<NavLink>)

  /** The ways a router handler can raise. */
  datatype HandlerError = MissingHref

  /** Element `i` is the one `getElementById(id)` returns: the first element in
      tree order whose ID is `id`. The empty string is nobody's ID. */
  ghost predicate IsFirstWithId(es: seq<Element>, i: int, id: string) {
    && id != ""
    && 0 <= i < |es|
    && es[i].id == id
    && forall j :: 0 <= j < i ==> es[j].id != id
  }

  /** Elements at most one of which is an active page. */
  ghost predicate AtMostOneActivePage(es: seq<Element>) {
    forall i, j ::
      (0 <= i < |es| && 0 <= j < |es| && es[i].isPage && es[i].active
       && es[j].isPage && es[j].active) ==> i == j
  }

  /** Two documents that differ at most in the class lists. */
  ghost predicate SameShape(d: Document, e: Document) {
    && |d.elements| == |e.elements|
    && |d.links| == |e.links|
    && (forall i :: 0 <= i < |d.elements| ==>
          d.elements[i].id == e.elements[i].id && d.elements[i].isPage == e.elements[i].isPage)
    && (forall j :: 0 <= j < |d.links| ==> d.links[j].href == e.links[j].href)
  }

  /** Search from position `k` on. */
  function FindFrom(es: seq<Element>, id: string, k: nat): (r: Option<nat>)
    requires k <= |es|
    ensures r.Some? ==> k <= r.value < |es| && es[r.value].id == id
    ensures r.Some? ==> forall j :: k <= j < r.value ==> es[j].id != id
    ensures r.None? ==> forall j :: k <= j < |es| ==> es[j].id != id
    decreases |es| - k
  {
    if k == |es| then None
    else if es[k].id == id then Some(k)
    else FindFrom(es, id, k + 1)
  }

  /** `document.getElementById(id)`: the position of the element it returns. */
  function FindById(es: seq<Element>, id: string): (r: Option<nat>)
    ensures r.Some? <==> exists i :: IsFirstWithId(es, i, id)
    ensures r.Some? ==> IsFirstWithId(es, r.value, id)
  {
    if id == "" then None
    else
      var r := FindFrom(es, id, 0);
      assert r.Some? ==> IsFirstWithId(es, r.value, id);
      r
  }

  /** Lines 33-36: remove `active` from every `.page` element. */
  function HideAllPages(es: seq<Element>): (r: seq<Element>)
    ensures |r| == |es|
    ensures forall i :: 0 <= i < |es| ==> r[i].id == es[i].id && r[i].isPage == es[i].isPage
    ensures forall i :: 0 <= i < |es| && r[i].isPage ==> !r[i].active
    ensures forall i :: 0 <= i < |es| && !es[i].isPage ==> r[i] == es[i]
  {
    seq(|es|, i requires 0 <= i < |es| =>
      if es[i].isPage then es[i].(active := false) else es[i])
  }

  /** Lines 39-42: add `active` to the element found, if any. */
  function ShowFound(es: seq<Element>, found: Option<nat>): (r: seq<Element>)
    requires found.Some? ==> found.value < |es|
    ensures |r| == |es|
    ensures forall i :: 0 <= i < |es| ==> r[i].id == es[i].id && r[i].isPage == es[i].isPage
    ensures forall i :: 0 <= i < |es| ==> (r[i].active <==> es[i].active || found == Some(i))
  {
    match found
    case None => es
    case Some(k) => es[k := es[k].(active := true)]
  }

  /** Lines 45-50: each link ends highlighted exactly when its href is `#`
      followed by the page id. */
  function HighlightLinks(ls: seq<NavLink>, pageId: string): (r: seq<NavLink>)
    ensures |r| == |ls|
    ensures forall j :: 0 <= j < |ls| ==> r[j].href == ls[j].href
    ensures forall j :: 0 <= j < |ls| ==> (r[j].active <==> ls[j].href == Some(['#'] + pageId))
  {
    seq(|ls|, j requires 0 <= j < |ls| =>
      ls[j].(active := ls[j].href == Some(['#'] + pageId)))
  }

  /** `navigateToPage(pageId)` (lines 31-57): hide every page, show the element
      `getElementById` finds, re-highlight the links. The closing smooth
      scroll is a presentation effect and is not part of the state. */
  function Navigate(d: Document, pageId: string): (r: Document)
    ensures SameShape(d, r)
    // a page ends active only when it is the element found
    ensures forall i :: 0 <= i < |d.elements| && r.elements[i].isPage && r.elements[i].active ==>
              IsFirstWithId(d.elements, i, pageId)
    // the element found ends active, page or not
    ensures forall i :: IsFirstWithId(d.elements, i, pageId) ==> r.elements[i].active
    // every other non-page element keeps its state
    ensures forall i ::
              (0 <= i < |d.elements| && !d.elements[i].isPage && !IsFirstWithId(d.elements, i, pageId))
              ==> r.elements[i] == d.elements[i]
    ensures AtMostOneActivePage(r.elements)
    ensures forall j :: 0 <= j < |d.links| ==>
              (r.links[j].active <==> d.links[j].href == Some(['#'] + pageId))
  {
    var hidden := HideAllPages(d.elements);
    Document(ShowFound(hidden, FindById(hidden, pageId)), HighlightLinks(d.links, pageId))
  }

  /** `href.substring(1)`: everything after the first character. */
  function DropFirst(href: string): (r: string)
    ensures |href| > 0 ==> [href[0]] + r == href
    ensures |href| == 0 ==> r == ""
  {
    if |href| == 0 then "" else href[1..]
  }

  /** The click handler of lines 60-65 on link `k`: the default jump is
      suppressed, the page id is the href without its first character. A link
      without an href makes `getAttribute` return null and the handler raise
      before anything changes. */
  function ClickNavLink(d: Document, k: nat): (r: Result<Document, HandlerError>)
    requires k < |d.links|
    ensures d.links[k].href.None? <==> r == Err(MissingHref)
    ensures r.Ok? ==> SameShape(d, r.value) && AtMostOneActivePage(r.value.elements)
    // the element `getElementById(href.substring(1))` finds is shown ...
    ensures r.Ok? ==> forall i ::
              IsFirstWithId(d.elements, i, DropFirst(d.links[k].href.value)) ==> r.value.elements[i].active
    // ... no other page is, and the links follow that page id
    ensures r.Ok? ==> forall i ::
              (0 <= i < |d.elements| && r.value.elements[i].isPage && r.value.elements[i].active)
              ==> IsFirstWithId(d.elements, i, DropFirst(d.links[k].href.value))
    ensures r.Ok? ==> forall j :: 0 <= j < |d.links| ==>
              (r.value.links[j].active <==> d.links[j].href == Some(['#'] + DropFirst(d.links[k].href.value)))
    // every other non-page element keeps its state
    ensures r.Ok? ==> forall i ::
              (0 <= i < |d.elements| && !d.elements[i].isPage
               && !IsFirstWithId(d.elements, i, DropFirst(d.links[k].href.value)))
              ==> r.value.elements[i] == d.elements[i]
    // a fragment link stays highlighted after its own click
    ensures (d.links[k].href.Some? && |d.links[k].href.value| > 0 && d.links[k].href.value[0] == '#')
              ==> r.Ok? && r.value.links[k].active
  {
    match d.links[k].href
    case None => Err(MissingHref)
    case Some(href) => Ok(Navigate(d, DropFirst(href)))
  }

  /** A page id nothing carries clears every page and highlights only links
      that point at it, without any error. */
  lemma NavigateUnknownClears(d: Document, pageId: string)
    requires forall i :: !IsFirstWithId(d.elements, i, pageId)
    ensures forall i :: 0 <= i < |d.elements| && Navigate(d, pageId).elements[i].isPage ==>
              !Navigate(d, pageId).elements[i].active
    ensures (forall j :: 0 <= j < |d.links| ==> d.links[j].href != Some(['#'] + pageId)) ==>
              forall j :: 0 <= j < |d.links| ==> !Navigate(d, pageId).links[j].active
  {
  }

  /** Navigating to a known page id leaves exactly that page active. */
  lemma NavigateKnownPage(d: Document, pageId: string, i: nat)
    requires IsFirstWithId(d.elements, i, pageId) && d.elements[i].isPage
    ensures Navigate(d, pageId).elements[i].active
    ensures forall j ::
              (0 <= j < |d.elements| && Navigate(d, pageId).elements[j].isPage
               && Navigate(d, pageId).elements[j].active) ==> j == i
  {
  }

  /** The flags `navigateToPage` leaves depend on the page id and the ids and
      hrefs only: two documents of the same shape that agree on the non-page
      elements end identical, whatever pages and links were active before. */
  lemma NavigateForgetsHistory(d: Document, e: Document, pageId: string)
    requires SameShape(d, e)
    requires forall i :: 0 <= i < |d.elements| && !d.elements[i].isPage ==> d.elements[i] == e.elements[i]
    ensures Navigate(d, pageId) == Navigate(e, pageId)
  {
  }

  /** Navigating twice to the same page is navigating once. */
  lemma NavigateIdempotent(d: Document, pageId: string)
    ensures Navigate(Navigate(d, pageId), pageId) == Navigate(d, pageId)
  {
  }

  /** Three pages with "home" showing; navigating to "contact" shows it
      alone and highlights only its link. */
  lemma NavigateScenario(d: Document)
    requires d == Document(
      [Element("home", true, true), Element("about", true, false), Element("contact", true, false)],
      [NavLink(Some("#home"), true), NavLink(Some("#about"), false), NavLink(Some("#contact"), false)])
    ensures Navigate(d, "contact") == Document(
      [Element("home", true, false), Element("about", true, false), Element("contact", true, true)],
      [NavLink(Some("#home"), false), NavLink(Some("#about"), false), NavLink(Some("#contact"), true)])
  {
    assert IsFirstWithId(d.elements, 2, "contact");
    var r := Navigate(d, "contact");
    assert ['#'] + "contact" == "#contact";
    assert r.elements[0] == Element("home", true, false);
    assert r.elements[1] == Element("about", true, false);
    assert r.elements[2] == Element("contact", true, true);
    assert r.links[0] == NavLink(Some("#home"), false);
    assert r.links[1] == NavLink(Some("#about"), false);
    assert r.links[2] == NavLink(Some("#contact"), true);
  }
}

=== FILE: wrappers.dfy ===
/** Optional values and handler outcomes shared by the other modules. */
module Wrappers {

  /** A value that may be absent: `null` on the JavaScript side. */
  datatype Option<+T> = None | Some(value: T)

  /** The outcome of running an event handler: it either completes with a new
      state or raises (a TypeError on a `null` receiver, for instance). */
  datatype Result<+T, +E> = Ok(value: T) | Err(error: E)
}
